=== FILE: README.md ===
# rustbry scanner — a verified model

rustbry is the start of a bytecode interpreter for a small scripting
language written in Rust. Its only implemented part is the lexer in
`src/scanner.rs`. A `Scanner` keeps an immutable character buffer and a
cursor of three numbers. `start` is the first character of the lexeme being
recognised. `current` is the next unread character. `line` is the 1-based
line number. The scanner is meant to skip blanks and `#` comments, consume
runs of letters and digits, classify a word as a keyword or an identifier,
and build a `Token` holding offset, length and line. As written it does not
(see Findings): `new` appends no `'\0'`, so `fwd` and `curr` read past the
end of the buffer; the skip loop skips at most one character; and
`check_keyword` slices too short a range, so no keyword is ever recognised.
Read by the borrow rules, `identifier` (line 70) also passes `&self` to
`Token::new` while the same argument list calls `check_keyword`, which takes
`&mut self`; that is a borrow conflict.

This project models that scanner in Dafny and proves what each operation
does:

- `tokens.dfy` (module `Tokens`): the `TokenEnum` tag set, the `Token`
  record, and the lexeme a token refers to.
- `keywords.dfy` (module `Keywords`): the exact-match keyword table
  `KeywordKind`, the corrected `check_keyword`, and the corrected
  first-letter/second-letter `Dispatch`. It includes a proof that the
  dispatch and the table agree on every lexeme.
- `scanner.dfy` (module `Scanning`): the scanner state and its invariant,
  construction, `at_end`/`curr`/`fwd`, comment and whitespace skipping, the
  identifier and number scanners, and `Token::new`.
- `as_written.dfy` (module `AsWritten`): the defective parts of the source
  as they are written, each with a lemma that shows the defect (see
  Findings).

The scanner is a value. Each operation takes a scanner and returns the
advanced one. The buffer always ends in the sentinel `'\0'` that `at_end`
tests for. `Valid` is the invariant `start <= current < |buf|` together with
`line >= 1`. Every operation preserves it, so no step reads past the buffer.

Identifiers are runs of letters and digits, without `_`. Numbers are
runs of digits, with no fractional part. The tags of punctuation,
operator and string tokens are declared (src/scanner.rs:137-162) and are part of
`TokenKind`, but there is no code that scans string literals, punctuation or
operators, and no `next_token` entry point, so none of those is modelled.

## Model

| member | source | states |
|---|---|---|
| Keywords.KeywordKind | src/scanner.rs:165-180 | the exact-match table returns either `Identifier` or a keyword whose spelling is the whole lexeme |
| Keywords.KeywordKindExact | src/scanner.rs:165-180 | for each of the 16 keywords, a lexeme is classified as that keyword if and only if it equals the keyword's spelling |
| Keywords.CheckKeyword | src/scanner.rs:56-65 | returns the keyword when the lexeme's letters from `offset` on are exactly `rest`, and `Identifier` otherwise (so `forest` does not match `for`) |
| Keywords.Dispatch | src/scanner.rs:71-107 | the corrected first-letter/second-letter dispatch answers either `Identifier` or a keyword whose whole spelling is the lexeme |
| Keywords.DispatchAgreesWithTable | src/scanner.rs:71-107 | the corrected first-letter/second-letter dispatch classifies every lexeme exactly as the exact-match table does |
| Scanning.New | src/scanner.rs:11-17 | a new scanner is valid, its buffer without the sentinel is the source text, and `start = current = 0`, `line = 1` |
| Scanning.AtEnd | src/scanner.rs:19-21 | the cursor on the last index is always at end of input, and a cursor not at end has room for one more step |
| Scanning.Curr | src/scanner.rs:30-32 | a current character other than the sentinel leaves room for one more step |
| Scanning.Fwd | src/scanner.rs:22-25 | advances `current` by exactly one and returns the new current character; buffer, `start` and `line` are unchanged and the scanner stays valid |
| Scanning.SkipComment | src/scanner.rs:46-50 | consumes up to but not including the next newline or the sentinel: every consumed character is neither, the cursor ends on one of them, and `line` is unchanged |
| Scanning.SkipStep | src/scanner.rs:36-53 | one pass of the skip loop: space, `\r` and `\t` advance by one with `line` unchanged; `\n` advances by one and adds one to `line`; `#` skips the comment; any other character changes nothing |
| Scanning.SkipWhitespace | src/scanner.rs:33-55 | repeats the skip step until the cursor is on a character that is neither blank nor `#`; every consumed character is a blank or comment text, the one reached is not, `start` is unchanged, and `line` grows by the number of newlines consumed |
| Scanning.ConsumeAlphaNumeric | src/scanner.rs:67-69 | consumes a maximal run of letters and digits: every consumed character is alphanumeric, the one reached is not, and `start`, `line` and the buffer are unchanged |
| Scanning.ScanIdentifier | src/scanner.rs:66-109 | after the maximal alphanumeric run, the token's kind is the keyword whose whole spelling is `buf[start..current)` (otherwise `Identifier`), and it records `start`, the lexeme length and `line` |
| Scanning.ScanNumber | src/scanner.rs:110-114 | consumes a maximal run of digits; the character reached is not a digit and nothing else changes |
| Scanning.MakeToken | src/scanner.rs:125-132 | the token records the scanner's `start`, length `current - start` and `line`; when the cursor is inside the buffer, its lexeme lies in the buffer and is `buf[start..current)` |
| AsWritten.NewAsWritten | src/scanner.rs:11-18 | as written, construction keeps exactly the source characters, with the cursor at 0 and `line` 1 |
| AsWritten.NewAsWrittenHasNoSentinel | src/scanner.rs:11-21 | with no `'\0'` in the source, the buffer built as written is not valid, `at_end` is false at every index, and on empty input the first read is out of bounds |
| AsWritten.SkipStepStopsEarly | src/scanner.rs:34-54 | on input `"  x"` the as-written skip stops after one blank and leaves a blank under the cursor |
| AsWritten.CheckKeywordAsWritten | src/scanner.rs:56-65 | the as-written check returns only if `start + offset <= rest.len()` and `rest.len()` is at most the buffer length (otherwise the slice panics), and then answers `kind` or `Identifier` |
| AsWritten.CheckKeywordAsWrittenNeverMatches | src/scanner.rs:56-65 | the as-written slice `[start + offset .. rest.len()]` is shorter than `rest` for every offset of at least 1, so it never returns the keyword |
| AsWritten.AndNotRecognisedAsWritten | src/scanner.rs:72 | the as-written check rejects `and` at the start of the input, while the corrected check accepts it |
| AsWritten.IdentifierKindAsWritten | src/scanner.rs:70-107 | the classification in `identifier` exactly as written, through the as-written slice, panics or answers `Identifier` for every scanner: the program recognises no keyword at all |
| AsWritten.ElseAndNfAsWritten | src/scanner.rs:72-88 | as written, `else` and `nf` at the start of the input are both identifiers (slices `"ls"` and `""`), so line 57 hides the defects of lines 74 and 88 |
| AsWritten.DispatchAsWritten | src/scanner.rs:71-107 | the as-written switch, run over the corrected check: it answers `Identifier` or a keyword, and `Identifier` for every word beginning with `f` or `t` (the re-read of lines 77 and 95), which holds in the program as written too |
| AsWritten.ElseReadsAsClass | src/scanner.rs:74 | once the line-57 slice is fixed, the as-written switch classifies `else` as `Class` |
| AsWritten.NilChecksWrongSuffix | src/scanner.rs:88 | once the line-57 slice is fixed, the as-written switch classifies `nil` as an identifier and `nf` as `Nil` |
| AsWritten.DispatchAsWrittenWrongExactlyOn | src/scanner.rs:71-107 | once the line-57 slice is fixed, the as-written switch differs from the exact-match table on exactly `else`, `nil`, `nf`, `false`, `for`, `fun`, `this` and `true` |

## Left out

- `src/main.rs`: the REPL, file reading, exit codes 64 and 65, and the undefined `init_vm`, `free_vm` and `interpret`. These are driver and I/O code.
- `bck` (src/scanner.rs:26-29): nothing calls it, and its body is a copy of `fwd` that increments the cursor instead of decrementing it.
- `TOKEN_NONE` (src/scanner.rs:183): nothing produces it, so `TokenKind` omits it.
- ConsumeAlphaNumeric, ScanIdentifier: letters and digits are ASCII only. Rust's `is_alphabetic` and `is_numeric` also accept other Unicode letters and digits.
- ScanNumber: digits are ASCII only, for the same reason.
- Scanning.Fwd: requires `current + 1 < |buf|`. The source does not check this, and an out-of-range index there panics.
- Cursor fields are unbounded naturals. Rust's `usize` overflow cannot be reached by a buffer that fits in memory.
- There is no code that scans string literals, punctuation, one- and two-character operators or fractional numbers, and no `next_token` dispatch, so none is modelled. The punctuation and operator tags themselves are in `TokenKind`.
- The borrow conflict at src/scanner.rs:70 is not modelled: `ScanIdentifier` computes the kind first and builds the token after, as the code evidently intends.

## Findings

| source | as written | input that shows it | evidently intended | confidence | as-written member | corrected member |
|---|---|---|---|---|---|---|
| src/scanner.rs:13 | the characters are collected but no `'\0'` is appended, although `at_end` (line 20) tests for it | `""`: the first `curr` reads index 0 of an empty buffer | append the sentinel so every scan stops inside the buffer | high (not executed) | `AsWritten.NewAsWritten`, `AsWritten.NewAsWrittenHasNoSentinel` | `Scanning.New` |
| src/scanner.rs:34-52 | every arm of the `loop` ends in `break`, so at most one blank or comment is skipped | `"  x"`: the cursor stops on the second blank | repeat until a character that is neither blank nor `#` | high (not executed) | `Scanning.SkipStep`, `AsWritten.SkipStepStopsEarly` | `Scanning.SkipWhitespace` |
| src/scanner.rs:57 | the slice is `[self.start + start .. rest.len()]` | `and` at offset 0: slice `[1..2]` is `"n"`, not `"nd"` | slice to `self.start + start + rest.len()` and require the lexeme length to be `start + rest.len()` | high (not executed) | `AsWritten.CheckKeywordAsWritten`, `AsWritten.CheckKeywordAsWrittenNeverMatches`, `AsWritten.AndNotRecognisedAsWritten`, `AsWritten.IdentifierKindAsWritten` | `Keywords.CheckKeyword` |
| src/scanner.rs:74 | the `'e'` arm returns `TOKEN_CLASS` | `else`, once line 57 is fixed; as written, line 57 already makes it an identifier | `TOKEN_ELSE` | high (not executed) | `AsWritten.DispatchAsWritten`, `AsWritten.ElseReadsAsClass`, `AsWritten.ElseAndNfAsWritten` | `Keywords.Dispatch`, `Keywords.DispatchAgreesWithTable` |
| src/scanner.rs:88 | the `'n'` arm checks the rest `"f"` | once line 57 is fixed, `nil` is an identifier and `nf` is `Nil`; as written, line 57 makes both identifiers | check the rest `"il"` | high (not executed) | `AsWritten.DispatchAsWritten`, `AsWritten.NilChecksWrongSuffix`, `AsWritten.ElseAndNfAsWritten` | `Keywords.Dispatch`, `Keywords.DispatchAgreesWithTable` |
| src/scanner.rs:77 | the second-letter switch under `f` reads `string[self.start]` again | `false`, `for` and `fun` are identifiers | switch on `string[self.start + 1]` | high (not executed) | `AsWritten.DispatchAsWritten` | `Keywords.Dispatch`, `Keywords.DispatchAgreesWithTable` |
| src/scanner.rs:95 | the second-letter switch under `t` reads `string[self.start]` again | `this` and `true` are identifiers | switch on `string[self.start + 1]` | high (not executed) | `AsWritten.DispatchAsWritten` | `Keywords.Dispatch`, `Keywords.DispatchAgreesWithTable` |

=== FILE: as_written.dfy ===
/**
  The parts of src/scanner.rs whose code departs from what the scanner
  evidently means to do, modelled as the code is written, each with a lemma
  that exhibits the departure. The corrected versions are in `Scanning` and
  `Keywords`. `SkipStep` in `Scanning` is the as-written loop body of
  `skip_whitespace` over the sentinel-terminated buffer of the corrected
  `New`, since the source's loop runs it once; over the buffer `new` builds
  as written, the input `" "` already reads past the end in `fwd`.
 */
module AsWritten {
  import opened Tokens
  import opened Keywords
  import opened Scanning

  /** A run of the source code: it panics, or it returns a value. */
  datatype Run<T> = Panics | Returns(value: T)

  /** `Scanner::new` as written: the characters are collected and no sentinel is appended. */
  function NewAsWritten(source: string): (s: Scanner)
    ensures s.buf == source
    ensures s.start == 0 && s.current == 0 && s.line == 1
  {
    Scanner(source, 0, 0, 1)
  }

  /**
    Without the sentinel, `at_end` is false at every index inside the
    buffer, so the comment loop and `fwd` run off its end; on empty input
    the very first `curr` is already out of bounds.
   */
  lemma NewAsWrittenHasNoSentinel(source: string)
    requires Sentinel !in source
    ensures !Valid(NewAsWritten(source))
    ensures forall i :: 0 <= i < |source| ==> NewAsWritten(source).buf[i] != Sentinel
    ensures source == "" ==> NewAsWritten(source).current >= |NewAsWritten(source).buf|
  {
    var s := NewAsWritten(source);
    assert s.buf == source;
    if |s.buf| > 0 {
      assert s.buf[|s.buf| - 1] in source;
    }
  }

  /** `skip_whitespace` as written stops after one blank, on `"  x"` leaving a blank under the cursor. */
  lemma SkipStepStopsEarly()
    ensures SkipStep(New("  x")).current == 1
    ensures IsSkippable(Curr(SkipStep(New("  x"))))
  {
    var s := New("  x");
    assert s.buf == [' ', ' ', 'x', Sentinel];
  }

  /**
    `check_keyword` as written: it slices `[start + offset .. |rest|]`,
    which panics when the lower bound passes the upper one or the upper one
    passes the buffer. `|rest|` stands for Rust's `rest.len()`, which counts
    bytes: the two agree because every `rest` the source passes is ASCII.
   */
  function CheckKeywordAsWritten(s: Scanner, offset: nat, rest: string, kind: TokenKind): (r: Run<TokenKind>)
    ensures r.Returns? <==> s.start + offset <= |rest| <= |s.buf|
    ensures r.Returns? ==> r.value == kind || r.value == Identifier
  {
    var lo := s.start + offset;
    var hi := |rest|;
    if lo <= hi <= |s.buf| then
      Returns(if s.buf[lo..hi] == rest then kind else Identifier)
    else Panics
  }

  /**
    Every call the source makes has `offset >= 1`, so the slice is shorter
    than `rest` and the keyword is never returned. As in
    `CheckKeywordAsWritten`, `|rest|` is `rest.len()` for the ASCII `rest`
    of every call site.
   */
  lemma CheckKeywordAsWrittenNeverMatches(s: Scanner, offset: nat, rest: string, kind: TokenKind)
    requires offset >= 1 && kind != Identifier
    ensures CheckKeywordAsWritten(s, offset, rest, kind) != Returns(kind)
  {
    var lo := s.start + offset;
    if lo <= |rest| <= |s.buf| {
      assert |s.buf[lo..|rest|]| < |rest|;
    }
  }

  /** The word `and` at the start of the input is not recognised by the as-written check. */
  lemma AndNotRecognisedAsWritten()
    ensures CheckKeywordAsWritten(Scanner("and" + [Sentinel], 0, 3, 1), 1, "nd", And)
         == Returns(Identifier)
    ensures CheckKeyword("and", 1, "nd", And) == And
  {
    assert ("and" + [Sentinel])[1..2] == "n";
    assert "and"[1..] == "nd";
  }

  /**
    The dispatch of `identifier` as written, but over the corrected
    `CheckKeyword`. With the slice of `check_keyword` as written no keyword
    is ever returned (see `IdentifierKindAsWritten`), which hides the dispatch's
    own mistakes; over the corrected check they show: `e` maps to `Class`,
    `n` compares against `"f"`, and the second-letter switches for `f` and
    `t` read the first letter again, so no word beginning with `f` or `t` is
    a keyword.
   */
  function DispatchAsWritten(lexeme: string): (k: TokenKind)
    ensures k == Identifier || IsKeyword(k)
    ensures |lexeme| > 0 && (lexeme[0] == 'f' || lexeme[0] == 't') ==> k == Identifier
  {
    if |lexeme| == 0 then Identifier
    else match lexeme[0]
      case 'a' => CheckKeyword(lexeme, 1, "nd", And)
      case 'c' => CheckKeyword(lexeme, 1, "lass", Class)
      case 'e' => CheckKeyword(lexeme, 1, "lse", Class)
      case 'f' => if |lexeme| > 1 then AfterF(lexeme, lexeme[0]) else Identifier
      case 'i' => CheckKeyword(lexeme, 1, "f", If)
      case 'n' => CheckKeyword(lexeme, 1, "f", Nil)
      case 'o' => CheckKeyword(lexeme, 1, "r", Or)
      case 'p' => CheckKeyword(lexeme, 1, "rint", Print)
      case 'r' => CheckKeyword(lexeme, 1, "eturn", Return)
      case 's' => CheckKeyword(lexeme, 1, "uper", Super)
      case 't' => if |lexeme| > 1 then AfterT(lexeme, lexeme[0]) else Identifier
      case 'v' => CheckKeyword(lexeme, 1, "ar", Var)
      case 'w' => CheckKeyword(lexeme, 1, "hile", While)
      case _ => Identifier
  }

  /** Over the corrected check, `else` comes out as `Class`. */
  lemma ElseReadsAsClass()
    ensures DispatchAsWritten("else") == Class
    ensures KeywordKind("else") == Else
  {
    assert "else"[1..] == "lse";
  }

  /** Over the corrected check, `nil` comes out as an identifier and the non-word `nf` as `Nil`. */
  lemma NilChecksWrongSuffix()
    ensures DispatchAsWritten("nil") == Identifier && KeywordKind("nil") == Nil
    ensures DispatchAsWritten("nf") == Nil && KeywordKind("nf") == Identifier
  {
    assert "nil"[1..] == "il";
    assert "nf"[1..] == "f";
  }

  /** The lexemes on which the as-written dispatch and the exact-match table disagree. */
  const Misclassified: set<string> := {"else", "nil", "nf", "false", "for", "fun", "this", "true"}

  /** Over the corrected check, the as-written dispatch is wrong on exactly the eight lexemes of `Misclassified`. */
  lemma DispatchAsWrittenWrongExactlyOn(w: string)
    ensures DispatchAsWritten(w) != KeywordKind(w) <==> w in Misclassified
  {
    DispatchAgreesWithTable(w);
    if |w| > 0 {
      var k := KeywordKind(w);
      if IsKeyword(k) {
        assert w == KeywordText(k);
      }
      match w[0]
      case 'e' =>
        SplitFirst(w, 'e', "lse");
        assert "else" == ['e'] + "lse";
      case 'n' =>
        SplitFirst(w, 'n', "il");
        SplitFirst(w, 'n', "f");
        assert "nil" == ['n'] + "il";
        assert "nf" == ['n'] + "f";
      case _ =>
    }
  }

  /** The second-letter switch under `f` as written, over the as-written check. */
  function AfterFAsWritten(s: Scanner, second: char): Run<TokenKind> {
    match second
    case 'a' => CheckKeywordAsWritten(s, 2, "lse", False)
    case 'o' => CheckKeywordAsWritten(s, 2, "r", For)
    case 'u' => CheckKeywordAsWritten(s, 2, "n", Fun)
    case _ => Returns(Identifier)
  }

  /** The second-letter switch under `t` as written, over the as-written check. */
  function AfterTAsWritten(s: Scanner, second: char): Run<TokenKind> {
    match second
    case 'h' => CheckKeywordAsWritten(s, 2, "is", This)
    case 'r' => CheckKeywordAsWritten(s, 2, "ue", True)
    case _ => Returns(Identifier)
  }

  /**
    The classification in `identifier` exactly as written: the switch on
    `string[start]`, the second-letter switches that read `string[start]`
    again, and the as-written `check_keyword`. Reading outside the buffer
    panics. The source never reassigns `start` after `new`, so `start <=
    current` always holds there; for the other case the `usize` subtraction
    is given the panic of a debug build (a release build wraps instead).

    It never classifies any lexeme as a keyword: it either panics or
    answers `Identifier`, because every arm goes through the slice of
    `check_keyword` that is always too short.
   */
  function IdentifierKindAsWritten(s: Scanner): (r: Run<TokenKind>)
    ensures r == Panics || r == Returns(Identifier)
  {
    if s.start >= |s.buf| then Panics
    else match s.buf[s.start]
      case 'a' => CheckKeywordAsWritten(s, 1, "nd", And)
      case 'c' => CheckKeywordAsWritten(s, 1, "lass", Class)
      case 'e' => CheckKeywordAsWritten(s, 1, "lse", Class)
      case 'f' =>
        if s.current < s.start then Panics
        else if s.current - s.start > 1 then AfterFAsWritten(s, s.buf[s.start])
        else Returns(Identifier)
      case 'i' => CheckKeywordAsWritten(s, 1, "f", If)
      case 'n' => CheckKeywordAsWritten(s, 1, "f", Nil)
      case 'o' => CheckKeywordAsWritten(s, 1, "r", Or)
      case 'p' => CheckKeywordAsWritten(s, 1, "rint", Print)
      case 'r' => CheckKeywordAsWritten(s, 1, "eturn", Return)
      case 's' => CheckKeywordAsWritten(s, 1, "uper", Super)
      case 't' =>
        if s.current < s.start then Panics
        else if s.current - s.start > 1 then AfterTAsWritten(s, s.buf[s.start])
        else Returns(Identifier)
      case 'v' => CheckKeywordAsWritten(s, 1, "ar", Var)
      case 'w' => CheckKeywordAsWritten(s, 1, "hile", While)
      case _ => Returns(Identifier)
  }

  /** As written, `else` and `nf` at the start of the input are identifiers too. */
  lemma ElseAndNfAsWritten()
    ensures IdentifierKindAsWritten(Scanner("else" + [Sentinel], 0, 4, 1)) == Returns(Identifier)
    ensures IdentifierKindAsWritten(Scanner("nf" + [Sentinel], 0, 2, 1)) == Returns(Identifier)
  {
    assert ("else" + [Sentinel])[1..3] == "ls";
    assert ("nf" + [Sentinel])[1..1] == "";
  }
}

=== FILE: keywords.dfy ===
/**
  Keyword classification of an identifier lexeme.

  `KeywordText` is the canonical spelling of each reserved word and
  `KeywordKind` the exact-match table over whole lexemes. `Dispatch` is the
  scanner's own strategy, a switch on the first (and for `f` and `t` the
  second) letter that compares the remaining letters with `CheckKeyword`,
  with the mapping and slicing defects of src/scanner.rs corrected.
  `DispatchAgreesWithTable` proves the two classifications equal on every
  lexeme.
 */
module Keywords {
  import opened Tokens

  /** The spelling of each reserved word. */
  function KeywordText(k: TokenKind): (w: string)
    requires IsKeyword(k)
    ensures 2 <= |w| <= 6
  {
    match k
    case And => "and"
    case Class => "class"
    case Else => "else"
    case False => "false"
    case For => "for"
    case Fun => "fun"
    case If => "if"
    case Nil => "nil"
    case Or => "or"
    case Print => "print"
    case Return => "return"
    case Super => "super"
    case This => "this"
    case True => "true"
    case Var => "var"
    case While => "while"
  }

  /** Exact-match lookup: the keyword whose whole spelling is `w`, else `Identifier`. */
  function KeywordKind(w: string): (k: TokenKind)
    ensures k == Identifier || IsKeyword(k)
    ensures IsKeyword(k) ==> KeywordText(k) == w
  {
    if w == "and" then And
    else if w == "class" then Class
    else if w == "else" then Else
    else if w == "false" then False
    else if w == "for" then For
    else if w == "fun" then Fun
    else if w == "if" then If
    else if w == "nil" then Nil
    else if w == "or" then Or
    else if w == "print" then Print
    else if w == "return" then Return
    else if w == "super" then Super
    else if w == "this" then This
    else if w == "true" then True
    else if w == "var" then Var
    else if w == "while" then While
    else Identifier
  }

  /** A lexeme is classified as a keyword exactly when it is that keyword's whole spelling. */
  lemma KeywordKindExact(w: string, k: TokenKind)
    requires IsKeyword(k)
    ensures KeywordKind(w) == k <==> w == KeywordText(k)
  {
    if w == KeywordText(k) {
      match k
      case And => case Class => case Else => case False => case For => case Fun =>
      case If => case Nil => case Or => case Print => case Return => case Super =>
      case This => case True => case Var => case While =>
    }
  }

  /**
    The corrected `check_keyword`: the lexeme is the keyword when its letters
    from `offset` on are exactly `rest`. The length test comes first, so a
    lexeme that merely starts with the keyword (`forest` against `for`) is
    an identifier.
   */
  function CheckKeyword(lexeme: string, offset: nat, rest: string, kind: TokenKind): (k: TokenKind)
    requires offset <= |lexeme|
    ensures lexeme[offset..] == rest ==> k == kind
    ensures lexeme[offset..] != rest ==> k == Identifier
  {
    if |lexeme| == offset + |rest| && lexeme[offset..offset + |rest|] == rest then kind
    else Identifier
  }

  /** The second-letter switch under `f`, on the letter `second`. */
  function AfterF(lexeme: string, second: char): TokenKind
    requires |lexeme| >= 2
  {
    match second
    case 'a' => CheckKeyword(lexeme, 2, "lse", False)
    case 'o' => CheckKeyword(lexeme, 2, "r", For)
    case 'u' => CheckKeyword(lexeme, 2, "n", Fun)
    case _ => Identifier
  }

  /** The second-letter switch under `t`, on the letter `second`. */
  function AfterT(lexeme: string, second: char): TokenKind
    requires |lexeme| >= 2
  {
    match second
    case 'h' => CheckKeyword(lexeme, 2, "is", This)
    case 'r' => CheckKeyword(lexeme, 2, "ue", True)
    case _ => Identifier
  }

  /**
    The corrected first-letter / second-letter dispatch of `identifier`. It
    only ever answers a keyword whose whole spelling is the lexeme.
   */
  function Dispatch(lexeme: string): (k: TokenKind)
    ensures k == Identifier || IsKeyword(k)
    ensures IsKeyword(k) ==> KeywordText(k) == lexeme
  {
    if |lexeme| == 0 then Identifier
    else match lexeme[0]
      case 'a' => CheckKeyword(lexeme, 1, "nd", And)
      case 'c' => CheckKeyword(lexeme, 1, "lass", Class)
      case 'e' => CheckKeyword(lexeme, 1, "lse", Else)
      case 'f' => if |lexeme| > 1 then AfterF(lexeme, lexeme[1]) else Identifier
      case 'i' => CheckKeyword(lexeme, 1, "f", If)
      case 'n' => CheckKeyword(lexeme, 1, "il", Nil)
      case 'o' => CheckKeyword(lexeme, 1, "r", Or)
      case 'p' => CheckKeyword(lexeme, 1, "rint", Print)
      case 'r' => CheckKeyword(lexeme, 1, "eturn", Return)
      case 's' => CheckKeyword(lexeme, 1, "uper", Super)
      case 't' => if |lexeme| > 1 then AfterT(lexeme, lexeme[1]) else Identifier
      case 'v' => CheckKeyword(lexeme, 1, "ar", Var)
      case 'w' => CheckKeyword(lexeme, 1, "hile", While)
      case _ => Identifier
  }

  /** A word splits into its first letter and the rest. */
  lemma SplitFirst(w: string, c: char, rest: string)
    requires |w| >= 1
    ensures w == [c] + rest <==> w[0] == c && w[1..] == rest
  {
    if w[0] == c && w[1..] == rest {
      assert w == [w[0]] + w[1..];
    }
  }

  /** A word splits into its first two letters and the rest. */
  lemma SplitSecond(w: string, c: char, d: char, rest: string)
    requires |w| >= 2
    ensures w == [c, d] + rest <==> w[0] == c && w[1] == d && w[2..] == rest
  {
    if w[0] == c && w[1] == d && w[2..] == rest {
      assert w == [w[0], w[1]] + w[2..];
    }
  }

  /** The letter-by-letter dispatch classifies every lexeme as the exact-match table does. */
  lemma DispatchAgreesWithTable(lexeme: string)
    ensures Dispatch(lexeme) == KeywordKind(lexeme)
  {
    if |lexeme| > 0 {
      var c := lexeme[0];
      SplitFirst(lexeme, 'a', "nd");
      SplitFirst(lexeme, 'c', "lass");
      SplitFirst(lexeme, 'e', "lse");
      SplitFirst(lexeme, 'i', "f");
      SplitFirst(lexeme, 'n', "il");
      SplitFirst(lexeme, 'o', "r");
      SplitFirst(lexeme, 'p', "rint");
      SplitFirst(lexeme, 'r', "eturn");
      SplitFirst(lexeme, 's', "uper");
      SplitFirst(lexeme, 'v', "ar");
      SplitFirst(lexeme, 'w', "hile");
      assert "and" == ['a'] + "nd";
      assert "class" == ['c'] + "lass";
      assert "else" == ['e'] + "lse";
      assert "if" == ['i'] + "f";
      assert "nil" == ['n'] + "il";
      assert "or" == ['o'] + "r";
      assert "print" == ['p'] + "rint";
      assert "return" == ['r'] + "eturn";
      assert "super" == ['s'] + "uper";
      assert "var" == ['v'] + "ar";
      assert "while" == ['w'] + "hile";
      if |lexeme| > 1 {
        SplitSecond(lexeme, 'f', 'a', "lse");
        SplitSecond(lexeme, 'f', 'o', "r");
        SplitSecond(lexeme, 'f', 'u', "n");
        SplitSecond(lexeme, 't', 'h', "is");
        SplitSecond(lexeme, 't', 'r', "ue");
        assert "false" == ['f', 'a'] + "lse";
        assert "for" == ['f', 'o'] + "r";
        assert "fun" == ['f', 'u'] + "n";
        assert "this" == ['t', 'h'] + "is";
        assert "true" == ['t', 'r'] + "ue";
      }
    }
  }
}

=== FILE: scanner.dfy ===
/**
  The scanner of src/scanner.rs: an immutable character buffer and a cursor
  of `start` (first character of the lexeme being recognised), `current`
  (next unread character) and `line` (1-based line of the cursor).

  The buffer ends in the sentinel `'\0'` that `at_end` looks for, so every
  step that moves the cursor stops on it and never leaves the buffer. A
  scanner is a value: each operation returns the advanced scanner.
 */
module Scanning {
  import opened Tokens
  import opened Keywords

  /** The terminator appended to the source text. */
  const Sentinel: char := '\0'

  /** `char::is_alphabetic`, restricted to ASCII letters. */
  predicate IsAlpha(c: char) {
    'a' <= c <= 'z' || 'A' <= c <= 'Z'
  }

  /** `char::is_numeric`, restricted to ASCII digits. */
  predicate IsDigit(c: char) {
    '0' <= c <= '9'
  }

  predicate IsAlphaNumeric(c: char) {
    IsAlpha(c) || IsDigit(c)
  }

  /** Characters `skip_whitespace` consumes one at a time. */
  predicate IsBlank(c: char) {
    c == ' ' || c == '\r' || c == '\t' || c == '\n'
  }

  /** Characters on which `skip_whitespace` does anything at all. */
  predicate IsSkippable(c: char) {
    IsBlank(c) || c == '#'
  }

  datatype Scanner = Scanner(buf: seq<char>, start: nat, current: nat, line: nat)

  /** The cursor invariant: the buffer ends in the sentinel and the cursor stays inside it. */
  predicate Valid(s: Scanner) {
    && |s.buf| > 0
    && s.buf[|s.buf| - 1] == Sentinel
    && s.start <= s.current < |s.buf|
    && s.line >= 1
  }

  /** The source text the scanner was built from: the buffer without its sentinel. */
  function Text(s: Scanner): seq<char>
    requires Valid(s)
  {
    s.buf[..|s.buf| - 1]
  }

  /** `Scanner::new`, with the sentinel appended. */
  function New(source: string): (s: Scanner)
    ensures Valid(s)
    ensures Text(s) == source
    ensures s.start == 0 && s.current == 0 && s.line == 1
  {
    Scanner(source + [Sentinel], 0, 0, 1)
  }

  /**
    `at_end`: the cursor is on a sentinel. The last index always is, and
    anywhere else off a sentinel there is room for one more step.
   */
  function AtEnd(s: Scanner): (b: bool)
    requires Valid(s)
    ensures s.current == |s.buf| - 1 ==> b
    ensures !b ==> s.current + 1 < |s.buf|
  {
    s.buf[s.current] == Sentinel
  }

  /** `curr`: the character under the cursor. Off the sentinel, one more step is safe. */
  function Curr(s: Scanner): (c: char)
    requires Valid(s)
    ensures c != Sentinel ==> s.current + 1 < |s.buf|
  {
    s.buf[s.current]
  }

  /** `fwd`: advance the cursor by one and return the character now under it. */
  function Fwd(s: Scanner): (res: (Scanner, char))
    requires Valid(s)
    requires s.current + 1 < |s.buf|
    ensures Valid(res.0)
    ensures res.0.current == s.current + 1
    ensures res.0.buf == s.buf && res.0.start == s.start && res.0.line == s.line
    ensures res.1 == Curr(res.0)
  {
    var t := s.(current := s.current + 1);
    (t, t.buf[t.current])
  }

  /**
    The inner `while` of the comment branch: consume characters up to, but
    not including, the next newline or the sentinel.
   */
  function SkipComment(s: Scanner): (r: Scanner)
    requires Valid(s)
    ensures Valid(r)
    ensures r.buf == s.buf && r.start == s.start && r.line == s.line
    ensures s.current <= r.current
    ensures Curr(r) == '\n' || Curr(r) == Sentinel
    ensures forall k :: s.current <= k < r.current ==> s.buf[k] != '\n' && s.buf[k] != Sentinel
    decreases |s.buf| - s.current
  {
    if Curr(s) == '\n' || Curr(s) == Sentinel then s
    else SkipComment(Fwd(s).0)
  }

  /**
    One pass of the `loop` in `skip_whitespace`: a blank moves the cursor by
    one (counting a newline), a `#` skips the rest of the line, and anything
    else leaves the scanner as it is.
   */
  function SkipStep(s: Scanner): (r: Scanner)
    requires Valid(s)
    ensures Valid(r)
    ensures r.buf == s.buf && r.start == s.start
    ensures Curr(s) in {' ', '\r', '\t'} ==> r.current == s.current + 1 && r.line == s.line
    ensures Curr(s) == '\n' ==> r.current == s.current + 1 && r.line == s.line + 1
    ensures Curr(s) == '#' ==> r == SkipComment(s)
    ensures !IsSkippable(Curr(s)) ==> r == s
  {
    match Curr(s)
    case ' ' => Fwd(s).0
    case '\r' => Fwd(s).0
    case '\t' => Fwd(s).0
    case '\n' => Fwd(s.(line := s.line + 1)).0
    case '#' => SkipComment(s)
    case _ => s
  }

  /**
    Position `k` lies in a comment begun at or after `lo`: scanning back from
    `k`, a `#` is met before any newline.
   */
  predicate InComment(buf: seq<char>, lo: nat, k: int)
    requires k < |buf|
    decreases k
  {
    if k < lo then false
    else if buf[k] == '\n' then false
    else if buf[k] == '#' then true
    else InComment(buf, lo, k - 1)
  }

  /** Position `k` holds whitespace or comment text, as seen by a skip begun at `lo`. */
  predicate Trivia(buf: seq<char>, lo: nat, k: nat)
    requires k < |buf|
  {
    buf[k] != Sentinel && (IsBlank(buf[k]) || InComment(buf, lo, k))
  }

  /** A run of non-newline characters starting at a `#` lies inside that comment. */
  lemma {:induction false} CommentRunInComment(buf: seq<char>, lo: nat, m: nat, e: nat)
    requires lo <= m <= e < |buf|
    requires buf[m] == '#'
    requires forall k :: m <= k < e ==> buf[k] != '\n'
    ensures forall k :: m <= k < e ==> InComment(buf, lo, k)
    decreases e - m
  {
    if m < e {
      if buf[e - 1] != '\n' && m < e - 1 {
        CommentRunInComment(buf, lo, m, e - 1);
        assert InComment(buf, lo, e - 2);
      }
    }
  }

  /**
    The state of an intended skip begun at `s` and now at `r`: everything
    consumed is trivia, a comment in progress ends at the cursor, and `line`
    counts the newlines consumed.
   */
  predicate SkipInvariant(s: Scanner, r: Scanner)
    requires Valid(s)
  {
    && Valid(r)
    && r.buf == s.buf && r.start == s.start
    && s.current <= r.current
    && (forall k :: s.current <= k < r.current ==> Trivia(s.buf, s.current, k))
    && (InComment(s.buf, s.current, r.current - 1) ==> Curr(r) == '\n' || Curr(r) == Sentinel)
    && r.line == s.line + multiset(s.buf[s.current..r.current])['\n']
  }

  /** A blank step keeps the skip invariant. */
  lemma BlankStepKeepsInvariant(s: Scanner, r: Scanner)
    requires Valid(s) && SkipInvariant(s, r)
    requires IsBlank(Curr(r))
    ensures SkipInvariant(s, SkipStep(r))
  {
    var next := SkipStep(r);
    assert Trivia(s.buf, s.current, r.current);
    assert !InComment(s.buf, s.current, r.current);
    assert s.buf[s.current..next.current] == s.buf[s.current..r.current] + [s.buf[r.current]];
  }

  /** A comment step keeps the skip invariant. */
  lemma CommentStepKeepsInvariant(s: Scanner, r: Scanner)
    requires Valid(s) && SkipInvariant(s, r)
    requires Curr(r) == '#'
    ensures SkipInvariant(s, SkipStep(r))
  {
    var next := SkipStep(r);
    CommentRunInComment(s.buf, s.current, r.current, next.current);
    assert s.buf[s.current..next.current]
        == s.buf[s.current..r.current] + s.buf[r.current..next.current];
    assert '\n' !in s.buf[r.current..next.current];
  }

  /** When the skip stops, the character reached is not trivia. */
  lemma SkipStopIsNotTrivia(s: Scanner, r: Scanner)
    requires Valid(s) && SkipInvariant(s, r)
    requires !IsSkippable(Curr(r))
    ensures !Trivia(s.buf, s.current, r.current)
  {
    if Curr(r) != Sentinel {
      assert !InComment(s.buf, s.current, r.current - 1);
    }
  }

  /**
    `skip_whitespace` as intended: repeat the step until the cursor is on a
    character that is neither blank nor `#`. Everything consumed is blank or
    comment text, the character reached is not, and `line` grows by the
    number of newlines consumed.
   */
  method SkipWhitespace(s: Scanner) returns (r: Scanner)
    requires Valid(s)
    ensures Valid(r)
    ensures r.buf == s.buf && r.start == s.start
    ensures s.current <= r.current
    ensures forall k :: s.current <= k < r.current ==> Trivia(s.buf, s.current, k)
    ensures !Trivia(s.buf, s.current, r.current)
    ensures !IsSkippable(Curr(r))
    ensures r.line == s.line + multiset(s.buf[s.current..r.current])['\n']
  {
    r := s;
    while IsSkippable(Curr(r))
      invariant SkipInvariant(s, r)
      decreases |r.buf| - r.current
    {
      if Curr(r) == '#' {
        CommentStepKeepsInvariant(s, r);
      } else {
        BlankStepKeepsInvariant(s, r);
      }
      r := SkipStep(r);
    }
    SkipStopIsNotTrivia(s, r);
  }

  /** The loop of `identifier`: consume a maximal run of letters and digits. */
  method ConsumeAlphaNumeric(s: Scanner) returns (r: Scanner)
    requires Valid(s)
    ensures Valid(r)
    ensures r.buf == s.buf && r.start == s.start && r.line == s.line
    ensures s.current <= r.current
    ensures forall k :: s.current <= k < r.current ==> IsAlphaNumeric(s.buf[k])
    ensures !IsAlphaNumeric(Curr(r))
  {
    r := s;
    while IsAlphaNumeric(Curr(r))
      invariant Valid(r)
      invariant r.buf == s.buf && r.start == s.start && r.line == s.line
      invariant s.current <= r.current
      invariant forall k :: s.current <= k < r.current ==> IsAlphaNumeric(s.buf[k])
      decreases |r.buf| - r.current
    {
      r := Fwd(r).0;
    }
  }

  /**
    `identifier`: consume the rest of the word, then classify the lexeme
    `buf[start..current)` with the corrected dispatch. The token's kind is
    the keyword whose whole spelling is the lexeme, or `Identifier`.
   */
  method ScanIdentifier(s: Scanner) returns (r: Scanner, t: Token)
    requires Valid(s)
    ensures Valid(r)
    ensures r.buf == s.buf && r.start == s.start && r.line == s.line
    ensures s.current <= r.current
    ensures forall k :: s.current <= k < r.current ==> IsAlphaNumeric(s.buf[k])
    ensures !IsAlphaNumeric(Curr(r))
    ensures t.kind == KeywordKind(s.buf[s.start..r.current])
    ensures t.start == s.start && t.length == r.current - s.start && t.line == s.line
  {
    r := ConsumeAlphaNumeric(s);
    var lexeme := r.buf[r.start..r.current];
    DispatchAgreesWithTable(lexeme);
    t := MakeToken(r, Dispatch(lexeme));
  }

  /** `number`: consume a maximal run of digits. */
  method ScanNumber(s: Scanner) returns (r: Scanner)
    requires Valid(s)
    ensures Valid(r)
    ensures r.buf == s.buf && r.start == s.start && r.line == s.line
    ensures s.current <= r.current
    ensures forall k :: s.current <= k < r.current ==> IsDigit(s.buf[k])
    ensures !IsDigit(Curr(r))
  {
    r := s;
    while IsDigit(Curr(r))
      invariant Valid(r)
      invariant r.buf == s.buf && r.start == s.start && r.line == s.line
      invariant s.current <= r.current
      invariant forall k :: s.current <= k < r.current ==> IsDigit(s.buf[k])
      decreases |r.buf| - r.current
    {
      r := Fwd(r).0;
    }
  }

  /**
    `Token::new`: a token for the lexeme `buf[start..current)` on the
    current line. It lies inside the buffer whenever the cursor does.
   */
  function MakeToken(s: Scanner, kind: TokenKind): (t: Token)
    requires s.start <= s.current
    ensures t.kind == kind && t.line == s.line
    ensures t.start == s.start && t.start + t.length == s.current
    ensures s.current <= |s.buf| ==>
              WithinBuffer(t, s.buf) && Lexeme(t, s.buf) == s.buf[s.start..s.current]
  {
    Token(kind, s.start, s.current - s.start, s.line)
  }
}

=== FILE: tokens.dfy ===
/**
  The token vocabulary of the scanner: the tag set `TokenEnum` and the
  `Token` record of src/scanner.rs. A token does not copy its lexeme; it
  holds an offset and a length into the scanner's buffer and the line on
  which it was recognised.
 */
module Tokens {

  /** Every tag of `TokenEnum`, in source order (the unused `TOKEN_NONE` is left out). */
  datatype TokenKind =
    // single character
    | LeftParen | RightParen | LeftBrace | RightBrace | Comma | Dot
    | Minus | Plus | Semicolon | Slash | Star
    // one or two characters
    | Bang | BangEqual | Equal | EqualEqual
    | Greater | GreaterEqual | Less | LessEqual
    // literals
    | Identifier | String | Number
    // keywords
    | And | Class | Else | False | For | Fun | If | Nil | Or
    | Print | Return | Super | This | True | Var | While
    | Eof

  /** The sixteen reserved words of the language. */
  predicate IsKeyword(k: TokenKind) {
    k.And? || k.Class? || k.Else? || k.False? || k.For? || k.Fun? || k.If? || k.Nil? ||
    k.Or? || k.Print? || k.Return? || k.Super? || k.This? || k.True? || k.Var? || k.While?
  }

  /** A token: its kind, the offset and length of its lexeme, and its line. */
  datatype Token = Token(kind: TokenKind, start: nat, length: nat, line: nat)

  /** The lexeme a token refers to lies inside the buffer. */
  predicate WithinBuffer(t: Token, buf: seq<char>) {
    t.start + t.length <= |buf|
  }

  /** The text a token refers to, borrowed from the buffer by offset and length. */
  function Lexeme(t: Token, buf: seq<char>): seq<char>
    requires WithinBuffer(t, buf)
  {
    buf[t.start..t.start + t.length]
  }
}
